=== FILE: README.md ===
# Booking-client slot logic in Dafny

This project models the pure logic inside a React appointment-booking client
(the "medicare" front end). It covers three pieces:

- **Twelve-hour clock arithmetic** (`src/utils/shared.ts`). A `Time` is an hour,
  a minute and AM/PM. It maps to minutes since midnight and back. A validity
  gate admits 12:30 AM through 11:59 PM. The `"HH:MM AM|PM"` text form is read
  and written with zero padding, `parseInt` and `split`. A stored time is shown
  as `"--"` when it is blank.
- **The time picker** (`src/common/TimePicker.tsx`). The slot-conflict test
  looks for an appointment on the same date whose range overlaps the
  candidate's. The picker state holds a start time, an end time and an
  end-moved-by-hand flag. The up and down buttons change that state, and the
  auto-end rule moves the end to thirty minutes after the start.
- **The pagination bar** (`src/common/PaginationControl.tsx`). It computes the
  page count by ceiling division and picks a window of at most three page
  numbers. It also works out the targets and disabled states of the
  previous-page and next-page arrows.

Modules, one file each:

| file | module | models |
|---|---|---|
| `wrappers.dfy` | `Wrappers` | `Option`, for an absent argument or a component that renders nothing |
| `jsnumber.dfy` | `JsNumber` | JavaScript's truncating `%`, `Math.min`, `Math.max` |
| `clock.dfy` | `Clock` | `getMinutes`, `timeToMinutes`, `minutesToTime`, `MIN_TIME`, `MAX_TIME`, `isValidTime` |
| `timetext.dfy` | `TimeText` | `pad`, `parseInt`, `split`, `parseTime`, the picker's `format`, `trim`, `formatTime` |
| `picker.dfy` | `Picker` | `isTimeRangeBooked`, the field steps, `updateTime`, the auto-end effect, the initial state |
| `pagination.dfy` | `Pagination` | `totalPages`, `pagesToShow`, the arrow targets, the component's render decision |

Points where the code's behaviour is easy to misread, and which the model
follows exactly:

- `minutesToTime` does not fold negative counts back into the day, because
  JavaScript's `%` keeps the sign of the dividend. For `-1` it gives hour -1,
  minute -1, AM (`Clock.MinutesToTimeOfNegative`). The inverse laws are stated
  for counts of zero or more, which is all the code ever passes.
- `parseTime` validates nothing. `TimeText.ParseTime` is defined on strings
  whose hour and minute pieces start with a digit and whose meridiem piece is
  `AM` or `PM`. It does no range check.
- Field steps do not carry. Each button steps one field modulo its range, and
  the neighbouring field never changes (`Picker.StepsDoNotCarry`).
- The overlap test is three disjuncts. For non-empty ranges it equals the
  half-open test `s < be && bs < e` (`Picker.OverlapsIsHalfOpen`). It differs
  from that test on an empty candidate (`Picker.EmptyCandidateAtBookedStart`).

## Model

| member | source | states |
|---|---|---|
| `JsNumber.JsRem` | src/utils/shared.ts:54 | JavaScript `%`: the remainder is smaller than the divisor in magnitude, has the dividend's sign, and differs from the dividend by a whole multiple of the divisor |
| `JsNumber.JsRemIsOdd` | src/utils/shared.ts:39 | negating the dividend negates JavaScript's remainder, which is why negative minute counts are not folded into the day |
| `Clock.GetMinutes` | src/utils/shared.ts:53-57 | for hour 1..12 and minute 0..59 the minutes lie in [0, 1439], the minute is the count modulo 60, AM is exactly the first 720 minutes, and the hour agrees modulo 12 |
| `Clock.TimeToMinutes` | src/utils/shared.ts:16-20 | the duplicate conversion lies in [0, 1439] for well-formed times and equals `getMinutes` everywhere |
| `Clock.GetMinutesLandmarks` | src/utils/shared.ts:53-57 | 12:00 AM is 0, 12:00 PM is 720, 11:59 PM is 1439 and 12:30 AM is the minimum time, 30 |
| `Clock.MinutesToTime` | src/utils/shared.ts:38-45 | for any count of zero or more the result is a well-formed time whose minutes equal the count modulo 1440 |
| `Clock.MinutesToTimeOfGetMinutes` | src/utils/shared.ts:38-45 | converting a well-formed time to minutes and back returns the same time |
| `Clock.GetMinutesOfMinutesToTime` | src/utils/shared.ts:38-45 | converting a count in [0, 1439] to a time and back returns the same count |
| `Clock.GetMinutesInjective` | src/utils/shared.ts:53-57 | two well-formed times with the same minutes are equal |
| `Clock.MinutesToTimeDayPeriodic` | src/utils/shared.ts:39 | for counts of zero or more, adding a whole day gives the same time |
| `Clock.MinutesToTimeOfNegative` | src/utils/shared.ts:38-43 | negative counts are not wrapped: -1 gives hour -1, minute -1, AM, which is not well-formed, and -720 gives 12:00 AM |
| `Clock.IsValidTime` | src/utils/shared.ts:46-51 | among well-formed times the gate admits exactly those outside 12:00 AM to 12:29 AM |
| `Clock.ValidTimeEndOfRange` | src/utils/shared.ts:46-51 | 11:59 PM passes the gate; one minute later is 12:00 AM, which fails it |
| `TimeText.NatToString` | src/utils/shared.ts:26 | the printed numeral is all digits, has one digit exactly below ten, and has no leading zero |
| `TimeText.DecimalValueOfNatToString` | src/utils/shared.ts:26 | reading a printed numeral gives back the number |
| `TimeText.IntToString` | src/utils/shared.ts:26 | a non-negative number prints as digits that read back to it, with no leading zero unless it is 0; a negative number prints as a minus sign followed by the magnitude's numeral, also without a leading zero |
| `TimeText.Pad` | src/utils/shared.ts:26 | numbers in 0..99 give exactly two characters; a number of zero or more gives digits that read back to it; anything below ten starts with "0" |
| `TimeText.PadOfTwoDigits` | src/utils/shared.ts:26 | two digits read as a number and padded again give the same two digits, leading zero included |
| `TimeText.LeadingDigits` | src/utils/shared.ts:32-33 | the result is the longest prefix made only of digits, and it is the whole string when that is all digits |
| `TimeText.ParseInt` | src/utils/shared.ts:32-33 | `parseInt` of a string that starts with a digit is the value of its whole leading run of digits; whatever follows the run is ignored |
| `TimeText.Split` | src/utils/shared.ts:29-30 | `split` gives at least one piece, no piece contains the separator, and joining the pieces with it restores the string |
| `TimeText.SplitAtFirstSep` | src/utils/shared.ts:29-30 | the first separator ends the first piece |
| `TimeText.SplitOfJoin` | src/utils/shared.ts:29-30 | splitting undoes joining separator-free pieces, so `split` and join are inverses |
| `TimeText.ParseTime` | src/utils/shared.ts:28-36 | the parsed hour and minute are never negative and are the values of the all-digit pieces before and after the colon; the meridiem is the piece after the space |
| `TimeText.Format` | src/common/TimePicker.tsx:45 | a time with fields in 0..99 formats to exactly eight characters, and there is always a space before the two meridiem letters |
| `TimeText.FormatParseRoundTrip` | src/utils/shared.ts:28-36 | parsing a formatted time gives the time back whenever its hour and minute are not negative |
| `TimeText.ParseFormatRoundTrip` | src/common/TimePicker.tsx:45 | every fixed-width `HH:MM AM` or `HH:MM PM` string parses, and formatting the result reproduces it character for character |
| `TimeText.TrimStart` | src/utils/shared.ts:23 | the result is a suffix with only white space removed in front, and it does not start with white space |
| `TimeText.TrimEnd` | src/utils/shared.ts:23 | the result is a prefix with only white space removed behind, and it does not end with white space |
| `TimeText.Trim` | src/utils/shared.ts:23 | `trim()` is the slice of the string left after removing white space only, at both ends; it is empty exactly when the string is all white space, and otherwise neither starts nor ends with white space |
| `TimeText.FormatTime` | src/utils/shared.ts:22-24 | a present string with a non-white-space character is shown unchanged; a missing, empty or all-white-space one is shown as "--" |
| `Picker.Overlaps` | src/common/TimePicker.tsx:70-74 | the literal three-disjunct test: the candidate starts inside the booking, ends inside it, or covers it (its meaning is stated by `Picker.OverlapsIsHalfOpen`) |
| `Picker.OverlapsIsHalfOpen` | src/common/TimePicker.tsx:70-74 | for non-empty ranges the three disjuncts hold exactly when the half-open ranges intersect |
| `Picker.HalfOpenOverlapSymmetric` | src/common/TimePicker.tsx:70-74 | half-open overlap is symmetric in the two ranges |
| `Picker.BackToBackIsFree` | src/common/TimePicker.tsx:70-74 | a candidate ending where a booking starts, or starting where it ends, does not conflict with it |
| `Picker.EmptyCandidateAtBookedStart` | src/common/TimePicker.tsx:70-74 | an empty candidate at the start of a booking satisfies the three disjuncts but not the half-open test |
| `Picker.AnyConflict` | src/common/TimePicker.tsx:66-75 | `some` over the list is true exactly when some appointment has the same date and satisfies the overlap disjuncts |
| `Picker.IsTimeRangeBooked` | src/common/TimePicker.tsx:58-76 | the candidate is booked exactly when some same-date appointment overlaps its start and end minutes; only appointments on the candidate's date need parseable times, since others are dismissed before parsing (line 67) |
| `Picker.BookedIffHalfOpenOverlap` | src/common/TimePicker.tsx:66-75 | with non-empty ranges, booked exactly when some same-date appointment intersects the half-open candidate range |
| `Picker.OnDate` | src/common/TimePicker.tsx:67 | keeps exactly the appointments whose date equals the candidate's |
| `Picker.ConflictCarriesOver` | src/common/TimePicker.tsx:66-75 | a conflict stays found in any list that holds every same-date appointment of the first |
| `Picker.BookedOnlyBySameDate` | src/common/TimePicker.tsx:67 | dropping appointments on other dates never changes the answer, whatever their times hold |
| `Picker.NothingOnDateIsFree` | src/common/TimePicker.tsx:66-67 | an empty list, or one with no appointment on the date, books nothing, with no demand on the other dates' times |
| `Picker.BookedIgnoresOrder` | src/common/TimePicker.tsx:66-75 | any reordering of the appointment list gives the same answer |
| `Picker.StepField` | src/common/TimePicker.tsx:85-93 | a step changes one field only; the hour stays in 1..12 and is congruent to hour plus delta modulo 12; the minute stays in 0..59 and is congruent to minute plus delta modulo 60; the meridiem flips |
| `Picker.StepFieldWellFormed` | src/common/TimePicker.tsx:88-90 | a one-unit step keeps a well-formed time well-formed |
| `Picker.StepsDoNotCarry` | src/common/TimePicker.tsx:88-92 | 59 minutes plus one gives 0 in the same hour; hour 11 plus one gives 12 with the same meridiem |
| `Picker.AutoEnd` | src/common/TimePicker.tsx:38-43 | the derived end is well-formed, and its minutes are the start's plus thirty, capped at 1439 |
| `Picker.UpdateTime` | src/common/TimePicker.tsx:78-103 | a step whose result fails the gate changes nothing; a valid start step is applied, and it moves the end to the auto-end unless the end was moved by hand; a valid end step that lands after the start is applied and sets the hand-moved flag; an end step at or before the start changes nothing; an end step never moves the start |
| `Picker.ButtonEnabled` | src/common/TimePicker.tsx:111-131 | a button is enabled when the time one step away passes the validity gate |
| `Picker.DisabledButtonIsNoOp` | src/common/TimePicker.tsx:110-146 | pressing a button that is drawn disabled would leave the state unchanged |
| `Picker.InitialState` | src/common/TimePicker.tsx:23-35 | the opening state 12:30 AM to 1:00 AM satisfies the invariant: the start is the earliest bookable time, the end is thirty minutes later and equals the auto-end, and it has not been moved by hand |
| `Picker.UpdateTimePreservesInvariant` | src/common/TimePicker.tsx:78-103 | one press keeps both times well-formed and valid, and keeps the end equal to the auto-end while it was not moved by hand |
| `Picker.AutoEndNotBeforeStart` | src/common/TimePicker.tsx:38-43 | while the end follows the start it is never before it, and it is strictly after it unless the start is 11:59 PM |
| `Picker.RunPreservesInvariant` | src/common/TimePicker.tsx:78-103 | any sequence of one-unit presses keeps the invariant |
| `Picker.ReachableStatesInvariant` | src/common/TimePicker.tsx:23-103 | every state reachable from the initial state by button presses satisfies the invariant |
| `Picker.EndNotAlwaysAfterStart` | src/common/TimePicker.tsx:37-43 | the start 11:59 PM gives an end equal to it, and after a hand-moved end a start step can pass the end |
| `Pagination.TotalPages` | src/common/PaginationControl.tsx:27 | the page count is the ceiling of total over page size: the least count of pages that holds every item |
| `Pagination.OnePageExactly` | src/common/PaginationControl.tsx:27-28 | the bar is suppressed (at most one page) exactly when the total fits within one page size |
| `Pagination.TotalPagesExamples` | src/common/PaginationControl.tsx:27 | 0, 5, 6, 15 and 16 items in pages of five give 0, 1, 2, 3 and 4 pages |
| `Pagination.PagesToShow` | src/common/PaginationControl.tsx:30-37 | up to three pages, the window is exactly 1..totalPages; above three, it is three consecutive pages inside 1..totalPages, centred on the current page except at the ends; always strictly increasing, and it contains any in-range current page |
| `Pagination.PrevTarget` | src/common/PaginationControl.tsx:48 | the previous arrow leads to page 1 or later, and one page back from any later page |
| `Pagination.NextTarget` | src/common/PaginationControl.tsx:78 | the next arrow never leads past the last page, and one page on from any earlier page |
| `Pagination.PrevDisabled` | src/common/PaginationControl.tsx:49 | the previous arrow is disabled on page 1 only |
| `Pagination.NextDisabled` | src/common/PaginationControl.tsx:79 | the next arrow is disabled on the last page only |
| `Pagination.ArrowsStayInRange` | src/common/PaginationControl.tsx:44-80 | on an in-range page both arrow targets are in range, and each arrow is disabled exactly when it would not change the page |
| `Pagination.Render` | src/common/PaginationControl.tsx:21-87 | nothing is rendered exactly when every item fits on one page; otherwise the bar shows min(totalPages, 3) consecutive pages inside 1..totalPages, containing any in-range current page. Above three pages the window is centred on the current page, or is the first or the last three pages at the ends. The arrows lead one page back and one page on, clamped to 1..totalPages, and each is disabled exactly on its own end page |

## Left out

- `getTomorrowMidnight` and the date picker depend on the wall clock, the JavaScript `Date` type and time zones. The model treats a date as an opaque string compared with `===`.
- `TimeText.ParseTime` and `Picker.IsTimeRangeBooked`: malformed appointment times on the candidate's date are left out; these members require those times to be parseable. Appointments on other dates may hold any text, because the source dismisses them by date before parsing (src/common/TimePicker.tsx:67). Two cases are excluded. If the hour or minute piece does not start with a digit, the source's parser produces NaN, and every comparison against NaN is false, so such an appointment never conflicts. If the meridiem piece is neither `AM` nor `PM`, `getMinutes` counts it as AM, because only `"PM"` adds twelve hours (src/utils/shared.ts:55). Such an appointment can still conflict, and the model does not cover it.
- `TimeText.ParseInt`: `parseInt` also skips leading white space and reads a sign. The pieces it receives come from splitting on the space and the colon, and the model requires them to start with a digit.
- JavaScript numbers are modelled as unbounded integers. Fractional hours or minutes, and the floating-point rounding of `Math.ceil(total / pageSize)`, are left out. `Pagination.TotalPages` is the exact integer ceiling.
- `Pagination.TotalPages` and `Pagination.Render` require a positive page size, because the source's division by zero or by a negative size gives Infinity or a negative count. No caller passes anything but the constant 5.
- `Picker.UpdateTimePreservesInvariant` and `Picker.RunPreservesInvariant` assume steps of plus or minus one, the only deltas the buttons pass. `Picker.StepField` itself is modelled for every delta.
- React scheduling is not modelled. The effects of the picker are folded into `Picker.UpdateTime` as synchronous transitions. The callbacks that publish the formatted start and end are `TimeText.Format`, and the booked flag is `Picker.IsTimeRangeBooked`.
- The RTK Query data layer (`src/store/apiSlice.ts`), the page components and the routing are not part of this model. Nor are the form, table, card, header and input components: they wire state, fetch over the network and render markup.
- Two clients can both book the same slot, because the conflict test runs on a snapshot fetched by each client. That race lies outside this code.

=== FILE: clock.dfy ===
/** Twelve-hour clock arithmetic: a `Time` of the booking picker, minutes
    since midnight, and the gate that decides which times may be booked. */
module Clock {
  import opened JsNumber

  datatype Meridiem = AM | PM

  /** A wall-clock time as the picker holds it. Nothing in the type keeps the
      fields in range; `WellFormed` says when they are. */
  datatype Time = Time(hour: int, minute: int, ampm: Meridiem)

  const MinutesPerDay: int := 24 * 60

  /** The earliest bookable boundary: 12:30 AM. */
  const MinTime: int := 30

  /** The latest bookable boundary: 11:59 PM. */
  const MaxTime: int := 23 * 60 + 59

  /** Hour on the twelve-hour dial, minute within the hour. */
  predicate WellFormed(t: Time)
  {
    1 <= t.hour <= 12 && 0 <= t.minute <= 59
  }

  /** Minutes since midnight of a twelve-hour time: hour 12 counts as 0 and
      PM adds twelve hours. */
  function GetMinutes(t: Time): (r: int)
    ensures WellFormed(t) ==> 0 <= r < MinutesPerDay
    ensures WellFormed(t) ==> r % 60 == t.minute
    ensures WellFormed(t) ==> (r < 720 <==> t.ampm == AM)
    ensures WellFormed(t) ==> (r / 60) % 12 == t.hour % 12
  {
    var hour := JsRem(t.hour, 12) + (if t.ampm == PM then 12 else 0);
    hour * 60 + t.minute
  }

  /** The second copy of the same conversion, kept under its own name by the
      shared helpers. */
  function TimeToMinutes(t: Time): (r: int)
    ensures WellFormed(t) ==> 0 <= r < MinutesPerDay
    ensures r == GetMinutes(t)
  {
    var hour24 := JsRem(t.hour, 12);
    var hour24' := if t.ampm == PM then hour24 + 12 else hour24;
    hour24' * 60 + t.minute
  }

  /** Midnight, noon and the last minute of the day. */
  lemma GetMinutesLandmarks()
    ensures GetMinutes(Time(12, 0, AM)) == 0
    ensures GetMinutes(Time(12, 0, PM)) == 720
    ensures GetMinutes(Time(11, 59, PM)) == MaxTime
    ensures GetMinutes(Time(12, 30, AM)) == MinTime
  {
  }

  /** The twelve-hour time `minutes` minutes after midnight. Whole days are
      dropped with JavaScript's remainder, so a negative count is not folded
      back into the day; hours are read with a floor division, which is
      Dafny's `/` for a positive divisor. */
  function MinutesToTime(minutes: int): (r: Time)
    ensures minutes >= 0 ==> WellFormed(r)
    ensures minutes >= 0 ==> GetMinutes(r) == minutes % MinutesPerDay
  {
    var mins := JsRem(minutes, MinutesPerDay);
    var hour24 := mins / 60;
    var minute := JsRem(mins, 60);
    var ampm := if hour24 >= 12 then PM else AM;
    var hour := if JsRem(hour24, 12) == 0 then 12 else JsRem(hour24, 12);
    Time(hour, minute, ampm)
  }

  /** Converting a well-formed time to minutes and back returns it, so the two
      conversions are a bijection between well-formed times and [0, 1439]. */
  lemma MinutesToTimeOfGetMinutes(t: Time)
    requires WellFormed(t)
    ensures MinutesToTime(GetMinutes(t)) == t
  {
    var m := GetMinutes(t);
    var h := if t.hour == 12 then 0 else t.hour;
    var h24 := if t.ampm == PM then h + 12 else h;
    assert m == h24 * 60 + t.minute;
    DivModOfSixty(m, h24, t.minute);
    assert JsRem(m, MinutesPerDay) == m;
    assert JsRem(h24, 12) == h;
  }

  /** Reading an hour and a minute back out of `h * 60 + min`. */
  lemma DivModOfSixty(m: int, h: int, min: int)
    requires 0 <= min < 60 && 0 <= h
    requires m == h * 60 + min
    ensures m / 60 == h && m % 60 == min
  {
  }

  /** Converting minutes of the day to a time and back returns them. */
  lemma GetMinutesOfMinutesToTime(m: int)
    requires 0 <= m < MinutesPerDay
    ensures GetMinutes(MinutesToTime(m)) == m
  {
  }

  /** Distinct well-formed times have distinct minute counts. */
  lemma GetMinutesInjective(a: Time, b: Time)
    requires WellFormed(a) && WellFormed(b)
    requires GetMinutes(a) == GetMinutes(b)
    ensures a == b
  {
    MinutesToTimeOfGetMinutes(a);
    MinutesToTimeOfGetMinutes(b);
  }

  /** A whole day more is the same time of day. */
  lemma MinutesToTimeDayPeriodic(m: int)
    requires m >= 0
    ensures MinutesToTime(m + MinutesPerDay) == MinutesToTime(m)
  {
    assert (m + MinutesPerDay) % MinutesPerDay == m % MinutesPerDay;
  }

  /** No wrap-around for negative counts: one minute before midnight is not
      11:59 PM but a time whose fields are out of range, while minus twelve
      hours happens to land on 12:00 AM. */
  lemma MinutesToTimeOfNegative()
    ensures MinutesToTime(-1) == Time(-1, -1, AM)
    ensures !WellFormed(MinutesToTime(-1))
    ensures MinutesToTime(-720) == Time(12, 0, AM)
  {
  }

  /** A time may be a booking boundary when it lies in [MinTime, MaxTime]. */
  predicate IsValidTime(t: Time): (r: bool)
    ensures WellFormed(t) ==> (r <==> !(t.ampm == AM && t.hour == 12 && t.minute < 30))
  {
    var mins := GetMinutes(t);
    mins >= MinTime && mins <= MaxTime
  }

  /** 11:59 PM is the last valid boundary; one minute more is midnight, which
      the gate refuses. */
  lemma ValidTimeEndOfRange()
    ensures IsValidTime(MinutesToTime(MaxTime))
    ensures MinutesToTime(MaxTime + 1) == Time(12, 0, AM)
    ensures !IsValidTime(MinutesToTime(MaxTime + 1))
  {
  }
}

=== FILE: jsnumber.dfy ===
/** JavaScript number operations on integers, written out because Dafny's `%`
    is Euclidean while JavaScript's remainder truncates toward zero. */
module JsNumber {

  function Abs(a: int): nat
  {
    if a < 0 then -a else a
  }

  /** JavaScript `a % b` on integers: the remainder of division truncated
      toward zero, so it carries the sign of the dividend. */
  function JsRem(a: int, b: int): (r: int)
    requires b != 0
    ensures Abs(r) < Abs(b)
    ensures a >= 0 ==> r >= 0
    ensures a <= 0 ==> r <= 0
    ensures (a - r) % b == 0
  {
    TruncatedRemainderCongruent(a, b);
    if a >= 0 then a % b else -((-a) % b)
  }

  /** The dividend minus the truncated remainder is a whole number of
      divisors. */
  lemma TruncatedRemainderCongruent(a: int, b: int)
    requires b != 0
    ensures (a - (if a >= 0 then a % b else -((-a) % b))) % b == 0
  {
    if a >= 0 {
      var q := a / b;
      assert a - a % b == q * b;
      MultipleMod(q, b);
    } else {
      var q := (-a) / b;
      assert -a == q * b + (-a) % b;
      assert a + (-a) % b == (-q) * b;
      MultipleMod(-q, b);
    }
  }

  /** A multiple of `b` leaves no remainder. */
  lemma MultipleMod(k: int, b: int)
    requires b != 0
    ensures (k * b) % b == 0
  {
    var q := (k * b) / b;
    var m := (k * b) % b;
    assert k * b == q * b + m;
    assert (k - q) * b == m;
    if k != q {
      assert Abs((k - q) * b) >= Abs(b) by {
        MulAbsBound(k - q, b);
      }
    }
  }

  lemma MulAbsBound(x: int, b: int)
    requires x != 0
    ensures Abs(x * b) >= Abs(b)
  {
    if x > 0 {
      if b >= 0 { assert x * b >= b; } else { assert x * b <= b; }
    } else {
      if b >= 0 { assert x * b <= -b; } else { assert x * b >= -b; }
    }
  }

  /** The JavaScript remainder is odd in the dividend: `(-a) % b == -(a % b)`. */
  lemma JsRemIsOdd(a: int, b: int)
    requires b != 0
    ensures JsRem(-a, b) == -JsRem(a, b)
  {
  }

  function Min(a: int, b: int): (r: int)
    ensures r <= a && r <= b
    ensures r == a || r == b
  {
    if a < b then a else b
  }

  function Max(a: int, b: int): (r: int)
    ensures r >= a && r >= b
    ensures r == a || r == b
  {
    if a < b then b else a
  }
}

=== FILE: pagination.dfy ===
/** The pagination bar under the appointment table: how many pages there are,
    which page numbers it shows, and where its arrows lead. */
module Pagination {
  import opened JsNumber
  import opened Wrappers

  /** `Math.ceil(total / pageSize)`: the fewest pages of `pageSize` items that
      hold `total` items. */
  function TotalPages(total: int, pageSize: int): (r: int)
    requires pageSize > 0
    ensures (r - 1) * pageSize < total <= r * pageSize
    ensures total >= 0 ==> r >= 0
  {
    -((-total) / pageSize)
  }

  /** At most one page exactly when every item fits on one page. */
  lemma OnePageExactly(total: int, pageSize: int)
    requires pageSize > 0
    ensures TotalPages(total, pageSize) <= 1 <==> total <= pageSize
  {
    var r := TotalPages(total, pageSize);
    if r >= 2 {
      assert (r - 1) * pageSize >= pageSize;
    } else {
      assert r * pageSize <= pageSize;
    }
  }

  lemma TotalPagesExamples()
    ensures TotalPages(0, 5) == 0
    ensures TotalPages(5, 5) == 1
    ensures TotalPages(6, 5) == 2
    ensures TotalPages(15, 5) == 3
    ensures TotalPages(16, 5) == 4
  {
  }

  /** The page numbers on the bar: all pages when there are at most three,
      otherwise three consecutive pages around `page`, shifted to stay inside
      1..totalPages. */
  method PagesToShow(page: int, totalPages: int) returns (pages: seq<int>)
    ensures totalPages <= 3 ==> |pages| == Max(totalPages, 0)
    ensures totalPages <= 3 ==> forall k :: 0 <= k < |pages| ==> pages[k] == k + 1
    ensures totalPages > 3 ==> |pages| == 3
    ensures totalPages > 3 ==> 1 <= pages[0] && pages[2] <= totalPages
    ensures forall k :: 0 <= k < |pages| ==> pages[k] == pages[0] + k
    ensures forall k, l :: 0 <= k < l < |pages| ==> pages[k] < pages[l]
    ensures 1 <= page <= totalPages ==> page in pages
    ensures totalPages > 3 && 1 < page < totalPages ==> pages == [page - 1, page, page + 1]
    ensures totalPages > 3 && page <= 1 ==> pages == [1, 2, 3]
    ensures totalPages > 3 && page >= totalPages ==> pages == [totalPages - 2, totalPages - 1, totalPages]
  {
    pages := [];
    if totalPages <= 3 {
      var i := 1;
      while i <= totalPages
        invariant 1 <= i <= Max(totalPages, 0) + 1
        invariant |pages| == i - 1
        invariant forall k :: 0 <= k < |pages| ==> pages[k] == k + 1
      {
        pages := pages + [i];
        i := i + 1;
      }
    } else {
      var start := Max(1, Min(page - 1, totalPages - 2));
      var i := start;
      while i < start + 3
        invariant start <= i <= start + 3
        invariant |pages| == i - start
        invariant forall k :: 0 <= k < |pages| ==> pages[k] == start + k
      {
        pages := pages + [i];
        i := i + 1;
      }
    }
    if 1 <= page <= totalPages {
      assert pages[page - pages[0]] == page;
    }
  }

  /** Target of the previous-page arrow. */
  function PrevTarget(page: int): (r: int)
    ensures r >= 1
    ensures page > 1 ==> r == page - 1
  {
    Max(1, page - 1)
  }

  /** Target of the next-page arrow. */
  function NextTarget(page: int, totalPages: int): (r: int)
    ensures r <= totalPages
    ensures page < totalPages ==> r == page + 1
  {
    Min(totalPages, page + 1)
  }

  /** The previous arrow is greyed out on the first page. */
  predicate PrevDisabled(page: int)
  {
    page == 1
  }

  /** The next arrow is greyed out on the last page. */
  predicate NextDisabled(page: int, totalPages: int)
  {
    page == totalPages
  }

  /** On a page in range both arrows lead to a page in range, and each is
      disabled exactly when following it would stay on the same page. */
  lemma ArrowsStayInRange(page: int, totalPages: int)
    requires 1 <= page <= totalPages
    ensures 1 <= PrevTarget(page) <= totalPages
    ensures 1 <= NextTarget(page, totalPages) <= totalPages
    ensures PrevDisabled(page) <==> PrevTarget(page) == page
    ensures NextDisabled(page, totalPages) <==> NextTarget(page, totalPages) == page
  {
  }

  /** What the component draws when it draws anything. */
  datatype Bar = Bar(totalPages: int, pages: seq<int>, prev: int, next: int,
                     prevDisabled: bool, nextDisabled: bool)

  /** The pagination control: nothing at all for one page or fewer, otherwise
      the page window and the two arrows. */
  method Render(page: int, total: int, pageSize: int) returns (bar: Option<Bar>)
    requires pageSize > 0
    ensures bar.None? <==> total <= pageSize
    ensures bar.Some? ==> bar.value.totalPages == TotalPages(total, pageSize) >= 2
    ensures bar.Some? ==> |bar.value.pages| == Min(bar.value.totalPages, 3)
    ensures bar.Some? ==> forall k :: 0 <= k < |bar.value.pages| ==>
      1 <= bar.value.pages[k] <= bar.value.totalPages && bar.value.pages[k] == bar.value.pages[0] + k
    ensures bar.Some? ==> bar.value.prev == PrevTarget(page) && bar.value.next == NextTarget(page, bar.value.totalPages)
    ensures bar.Some? && bar.value.totalPages > 3 && 1 < page < bar.value.totalPages ==>
      bar.value.pages == [page - 1, page, page + 1]
    ensures bar.Some? && bar.value.totalPages > 3 && page <= 1 ==> bar.value.pages == [1, 2, 3]
    ensures bar.Some? && bar.value.totalPages > 3 && page >= bar.value.totalPages ==>
      bar.value.pages == [bar.value.totalPages - 2, bar.value.totalPages - 1, bar.value.totalPages]
    ensures bar.Some? ==> bar.value.prevDisabled == PrevDisabled(page)
    ensures bar.Some? ==> bar.value.nextDisabled == NextDisabled(page, bar.value.totalPages)
    ensures bar.Some? && 1 <= page <= bar.value.totalPages ==>
      && page in bar.value.pages
      && 1 <= bar.value.prev <= bar.value.totalPages
      && 1 <= bar.value.next <= bar.value.totalPages
      && (bar.value.prevDisabled <==> bar.value.prev == page)
      && (bar.value.nextDisabled <==> bar.value.next == page)
  {
    var totalPages := TotalPages(total, pageSize);
    OnePageExactly(total, pageSize);
    if totalPages <= 1 {
      return None;
    }
    var pages := PagesToShow(page, totalPages);
    assert |pages| == Min(totalPages, 3);
    assert forall k :: 0 <= k < |pages| ==> 1 <= pages[k] <= totalPages;
    if 1 <= page <= totalPages {
      ArrowsStayInRange(page, totalPages);
    }
    var b := Bar(totalPages, pages, PrevTarget(page), NextTarget(page, totalPages),
                 PrevDisabled(page), NextDisabled(page, totalPages));
    bar := Some(b);
  }
}

=== FILE: picker.dfy ===
/** The booking time picker: the slot-conflict test against existing
    appointments, and the start/end state machine driven by the up and down
    buttons of each field. */
module Picker {
  import opened JsNumber
  import opened Clock
  import opened TimeText

  // ---------------------------------------------------------------------------
  // Conflict detection

  /** The fields of a stored appointment that the conflict test reads. */
  datatype Appointment = Appointment(date: string, startTime: string, endTime: string)

  /** Appointment times as the server returns them, in the picker's format. */
  predicate Readable(app: Appointment)
  {
    Parseable(app.startTime) && Parseable(app.endTime)
  }

  /** The appointments on `dateStr` have parseable times. Appointments on
      other dates are dismissed before their times are read, so their times
      may be anything. */
  predicate AllReadable(apps: seq<Appointment>, dateStr: string)
  {
    forall i :: 0 <= i < |apps| && apps[i].date == dateStr ==> Readable(apps[i])
  }

  function AppStart(app: Appointment): int
    requires Readable(app)
  {
    GetMinutes(ParseTime(app.startTime))
  }

  function AppEnd(app: Appointment): int
    requires Readable(app)
  {
    GetMinutes(ParseTime(app.endTime))
  }

  /** The picker's overlap test, disjunct by disjunct: the candidate starts
      inside the booked range, ends inside it, or covers it. */
  predicate Overlaps(startMins: int, endMins: int, appStart: int, appEnd: int)
  {
    || (startMins >= appStart && startMins < appEnd)
    || (endMins > appStart && endMins <= appEnd)
    || (startMins <= appStart && endMins >= appEnd)
  }

  /** Overlap of the half-open ranges [s, e) and [bs, be). */
  predicate HalfOpenOverlap(s: int, e: int, bs: int, be: int)
  {
    s < be && bs < e
  }

  /** For non-empty ranges the three disjuncts say exactly that the half-open
      ranges intersect. */
  lemma OverlapsIsHalfOpen(s: int, e: int, bs: int, be: int)
    requires s < e && bs < be
    ensures Overlaps(s, e, bs, be) <==> HalfOpenOverlap(s, e, bs, be)
  {
  }

  /** Half-open overlap does not depend on which range is the candidate. */
  lemma HalfOpenOverlapSymmetric(s: int, e: int, bs: int, be: int)
    ensures HalfOpenOverlap(s, e, bs, be) <==> HalfOpenOverlap(bs, be, s, e)
  {
  }

  /** Back-to-back ranges do not conflict, on either side. */
  lemma BackToBackIsFree(s: int, e: int, bs: int, be: int)
    requires s < e && bs < be
    requires e == bs || s == be
    ensures !Overlaps(s, e, bs, be)
  {
  }

  /** An empty candidate sitting at the start of a booked range counts as
      overlapping under the three disjuncts although it shares no minute with
      it: the disjunct form needs non-empty ranges to mean intersection. */
  lemma EmptyCandidateAtBookedStart()
    ensures Overlaps(60, 60, 60, 90)
    ensures !HalfOpenOverlap(60, 60, 60, 90)
  {
  }

  /** One appointment blocks the candidate: same date string, and the three
      disjuncts hold. */
  predicate ConflictsWith(app: Appointment, startMins: int, endMins: int, dateStr: string)
    requires app.date == dateStr ==> Readable(app)
  {
    app.date == dateStr && Overlaps(startMins, endMins, AppStart(app), AppEnd(app))
  }

  /** `appointments.some(...)` over the conflict test, first to last. */
  function AnyConflict(apps: seq<Appointment>, startMins: int, endMins: int, dateStr: string): (r: bool)
    requires AllReadable(apps, dateStr)
    ensures r <==> exists i :: 0 <= i < |apps| && ConflictsWith(apps[i], startMins, endMins, dateStr)
  {
    if |apps| == 0 then false
    else
      var rest := AnyConflict(apps[1..], startMins, endMins, dateStr);
      assert forall i :: 1 <= i < |apps| ==> apps[1..][i - 1] == apps[i];
      ConflictsWith(apps[0], startMins, endMins, dateStr) || rest
  }

  /** Whether the candidate range from `start` to `end` on `dateStr` collides
      with an appointment on the same date. */
  function IsTimeRangeBooked(apps: seq<Appointment>, start: Time, end: Time, dateStr: string): (r: bool)
    requires AllReadable(apps, dateStr)
    ensures r <==> exists i :: 0 <= i < |apps| && ConflictsWith(apps[i], GetMinutes(start), GetMinutes(end), dateStr)
  {
    AnyConflict(apps, GetMinutes(start), GetMinutes(end), dateStr)
  }

  /** With non-empty ranges, the candidate is booked exactly when some
      appointment on the same date intersects it as a half-open range. */
  lemma BookedIffHalfOpenOverlap(apps: seq<Appointment>, start: Time, end: Time, dateStr: string)
    requires AllReadable(apps, dateStr)
    requires GetMinutes(start) < GetMinutes(end)
    requires forall i :: 0 <= i < |apps| && apps[i].date == dateStr ==> AppStart(apps[i]) < AppEnd(apps[i])
    ensures IsTimeRangeBooked(apps, start, end, dateStr) <==>
      exists i :: 0 <= i < |apps| && apps[i].date == dateStr &&
        HalfOpenOverlap(GetMinutes(start), GetMinutes(end), AppStart(apps[i]), AppEnd(apps[i]))
  {
    var s, e := GetMinutes(start), GetMinutes(end);
    forall i | 0 <= i < |apps| && apps[i].date == dateStr
      ensures ConflictsWith(apps[i], s, e, dateStr) <==>
        HalfOpenOverlap(s, e, AppStart(apps[i]), AppEnd(apps[i]))
    {
      OverlapsIsHalfOpen(s, e, AppStart(apps[i]), AppEnd(apps[i]));
    }
  }

  /** The appointments on one date, in their original order. */
  function OnDate(apps: seq<Appointment>, dateStr: string): (r: seq<Appointment>)
    ensures forall x :: x in r <==> x in apps && x.date == dateStr
  {
    if |apps| == 0 then []
    else
      var rest := OnDate(apps[1..], dateStr);
      assert apps == [apps[0]] + apps[1..];
      if apps[0].date == dateStr then [apps[0]] + rest else rest
  }

  /** A conflict found in `a` is found in `b` when `b` holds every
      appointment of `a` on the candidate's date. */
  lemma ConflictCarriesOver(a: seq<Appointment>, b: seq<Appointment>, startMins: int, endMins: int, dateStr: string)
    requires AllReadable(a, dateStr) && AllReadable(b, dateStr)
    requires forall x :: x in a && x.date == dateStr ==> x in b
    ensures AnyConflict(a, startMins, endMins, dateStr) ==> AnyConflict(b, startMins, endMins, dateStr)
  {
    if AnyConflict(a, startMins, endMins, dateStr) {
      var i :| 0 <= i < |a| && ConflictsWith(a[i], startMins, endMins, dateStr);
      var x := a[i];
      assert x in b;
      var j :| 0 <= j < |b| && b[j] == x;
      assert ConflictsWith(b[j], startMins, endMins, dateStr);
    }
  }

  /** Appointments on other dates never matter: keeping only those on the
      candidate's date gives the same answer. */
  lemma BookedOnlyBySameDate(apps: seq<Appointment>, start: Time, end: Time, dateStr: string)
    requires AllReadable(apps, dateStr)
    ensures AllReadable(OnDate(apps, dateStr), dateStr)
    ensures IsTimeRangeBooked(apps, start, end, dateStr) == IsTimeRangeBooked(OnDate(apps, dateStr), start, end, dateStr)
  {
    var f := OnDate(apps, dateStr);
    forall i | 0 <= i < |f|
      ensures Readable(f[i])
    {
      assert f[i] in apps;
    }
    var s, e := GetMinutes(start), GetMinutes(end);
    ConflictCarriesOver(apps, f, s, e, dateStr);
    ConflictCarriesOver(f, apps, s, e, dateStr);
  }

  /** No appointment, or none on the candidate's date, means no conflict. */
  lemma NothingOnDateIsFree(apps: seq<Appointment>, start: Time, end: Time, dateStr: string)
    requires forall i :: 0 <= i < |apps| ==> apps[i].date != dateStr
    ensures AllReadable(apps, dateStr)
    ensures !IsTimeRangeBooked(apps, start, end, dateStr)
  {
  }

  /** Reordering the appointment list does not change the answer. */
  lemma BookedIgnoresOrder(apps: seq<Appointment>, apps': seq<Appointment>, start: Time, end: Time, dateStr: string)
    requires AllReadable(apps, dateStr)
    requires multiset(apps) == multiset(apps')
    ensures AllReadable(apps', dateStr)
    ensures IsTimeRangeBooked(apps, start, end, dateStr) == IsTimeRangeBooked(apps', start, end, dateStr)
  {
    forall i | 0 <= i < |apps'| && apps'[i].date == dateStr
      ensures Readable(apps'[i])
    {
      assert apps'[i] in multiset(apps);
    }
    assert forall x :: x in apps <==> x in multiset(apps);
    assert forall x :: x in apps' <==> x in multiset(apps');
    var s, e := GetMinutes(start), GetMinutes(end);
    ConflictCarriesOver(apps, apps', s, e, dateStr);
    ConflictCarriesOver(apps', apps, s, e, dateStr);
  }

  // ---------------------------------------------------------------------------
  // The picker's state machine

  /** The field an up or down button changes. */
  datatype Field = Hour | Minute | AmPm

  /** Which of the two time cards a button belongs to. */
  datatype Side = Start | End

  /** The picker's local state: both times and whether the user has moved the
      end time by hand. */
  datatype PickerState = PickerState(start: Time, end: Time, endManuallyChanged: bool)

  /** The state the picker opens with: 12:30 AM to 1:00 AM, end not yet
      moved by hand. The start is the earliest bookable time and the end is
      already where the auto-end rule would put it. */
  function InitialState(): (s: PickerState)
    ensures Invariant(s)
    ensures !s.endManuallyChanged && GetMinutes(s.start) == MinTime
    ensures GetMinutes(s.end) == GetMinutes(s.start) + 30
  {
    PickerState(Time(12, 30, AM), Time(1, 0, AM), false)
  }

  /** One step of one field. The hour cycles through 1..12 and the minute
      through 0..59 without carrying into the next field, and the meridiem
      toggles whatever the direction. */
  function StepField(t: Time, field: Field, delta: int): (r: Time)
    ensures field == Hour ==> r.minute == t.minute && r.ampm == t.ampm
    ensures field == Hour && t.hour + delta + 11 >= 0 ==>
      1 <= r.hour <= 12 && (r.hour - (t.hour + delta)) % 12 == 0
    ensures field == Minute ==> r.hour == t.hour && r.ampm == t.ampm
    ensures field == Minute && t.minute + delta + 60 >= 0 ==>
      0 <= r.minute <= 59 && (r.minute - (t.minute + delta)) % 60 == 0
    ensures field == AmPm ==> r.hour == t.hour && r.minute == t.minute && r.ampm != t.ampm
  {
    match field
    case Hour => t.(hour := JsRem(t.hour + delta - 1 + 12, 12) + 1)
    case Minute => t.(minute := JsRem(t.minute + delta + 60, 60))
    case AmPm => t.(ampm := if t.ampm == AM then PM else AM)
  }

  /** A single step keeps a well-formed time well-formed. */
  lemma StepFieldWellFormed(t: Time, field: Field, delta: int)
    requires WellFormed(t)
    requires delta == 1 || delta == -1
    ensures WellFormed(StepField(t, field, delta))
  {
  }

  /** Stepping the minute past 59 wraps to 0 in the same hour, and stepping
      the hour past 11 gives 12 without toggling the meridiem. */
  lemma StepsDoNotCarry()
    ensures StepField(Time(3, 59, AM), Minute, 1) == Time(3, 0, AM)
    ensures StepField(Time(11, 15, AM), Hour, 1) == Time(12, 15, AM)
    ensures StepField(Time(12, 0, PM), Hour, 1) == Time(1, 0, PM)
    ensures StepField(Time(1, 0, PM), Minute, -1) == Time(1, 59, PM)
  {
  }

  /** The end time that follows a start time: thirty minutes later, but no
      later than the last bookable minute. */
  function AutoEnd(start: Time): (r: Time)
    ensures GetMinutes(start) >= 0 ==> WellFormed(r)
    ensures GetMinutes(start) >= 0 ==> GetMinutes(r) == Min(GetMinutes(start) + 30, MaxTime)
  {
    MinutesToTime(Min(GetMinutes(start) + 30, MaxTime))
  }

  /** Up or down on one field of one card. A result that fails the validity
      gate is dropped, and so is an end at or before the start. An accepted
      start runs the auto-end rule unless the end was moved by hand; an
      accepted end marks the end as moved by hand. */
  function UpdateTime(s: PickerState, side: Side, field: Field, delta: int): (r: PickerState)
    ensures var next := StepField(if side == Start then s.start else s.end, field, delta);
      !IsValidTime(next) ==> r == s
    ensures var next := StepField(s.start, field, delta);
      side == Start && IsValidTime(next) ==>
        && r.start == next
        && r.end == (if s.endManuallyChanged then s.end else AutoEnd(next))
        && r.endManuallyChanged == s.endManuallyChanged
    ensures side == End ==> r.start == s.start
    ensures var next := StepField(s.end, field, delta);
      side == End && IsValidTime(next) && GetMinutes(next) > GetMinutes(s.start) ==>
        r.end == next && r.endManuallyChanged
    ensures side == End && GetMinutes(StepField(s.end, field, delta)) <= GetMinutes(s.start) ==> r == s
    ensures side == End && r != s ==> GetMinutes(r.end) > GetMinutes(r.start) && IsValidTime(r.end)
  {
    var next := StepField(if side == Start then s.start else s.end, field, delta);
    if !IsValidTime(next) then s
    else if side == End && GetMinutes(next) <= GetMinutes(s.start) then s
    else if side == Start then
      s.(start := next, end := if s.endManuallyChanged then s.end else AutoEnd(next))
    else
      s.(end := next, endManuallyChanged := true)
  }

  /** A button is enabled when the time it would produce passes the validity
      gate. */
  predicate ButtonEnabled(t: Time, field: Field, delta: int)
  {
    IsValidTime(StepField(t, field, delta))
  }

  /** A disabled button would have changed nothing anyway. */
  lemma DisabledButtonIsNoOp(s: PickerState, side: Side, field: Field, delta: int)
    requires !ButtonEnabled(if side == Start then s.start else s.end, field, delta)
    ensures UpdateTime(s, side, field, delta) == s
  {
  }

  /** While the end has not been moved by hand it is the auto-end of the
      start; both times are well-formed and pass the validity gate. */
  predicate Invariant(s: PickerState)
  {
    && WellFormed(s.start) && IsValidTime(s.start)
    && WellFormed(s.end) && IsValidTime(s.end)
    && (!s.endManuallyChanged ==> s.end == AutoEnd(s.start))
  }

  /** One button press keeps the invariant. */
  lemma UpdateTimePreservesInvariant(s: PickerState, side: Side, field: Field, delta: int)
    requires Invariant(s)
    requires delta == 1 || delta == -1
    ensures Invariant(UpdateTime(s, side, field, delta))
  {
    var r := UpdateTime(s, side, field, delta);
    StepFieldWellFormed(if side == Start then s.start else s.end, field, delta);
    if side == Start && r != s && !s.endManuallyChanged {
      var m := GetMinutes(r.start);
      assert MinTime <= m <= MaxTime;
      assert GetMinutes(r.end) == Min(m + 30, MaxTime);
    }
  }

  /** While the end follows the start automatically, it is never before it. */
  lemma AutoEndNotBeforeStart(s: PickerState)
    requires Invariant(s) && !s.endManuallyChanged
    ensures GetMinutes(s.start) <= GetMinutes(s.end)
    ensures GetMinutes(s.start) < MaxTime ==> GetMinutes(s.start) < GetMinutes(s.end)
  {
  }

  /** One button press: the card, the field and the direction. */
  datatype Press = Press(side: Side, field: Field, delta: int)

  predicate UnitPresses(presses: seq<Press>)
  {
    forall i :: 0 <= i < |presses| ==> presses[i].delta == 1 || presses[i].delta == -1
  }

  /** The state after a sequence of button presses. */
  function Run(s: PickerState, presses: seq<Press>): PickerState
    decreases |presses|
  {
    if |presses| == 0 then s
    else Run(UpdateTime(s, presses[0].side, presses[0].field, presses[0].delta), presses[1..])
  }

  /** Every state the buttons can reach from the initial state satisfies the
      invariant. */
  lemma {:induction false} RunPreservesInvariant(s: PickerState, presses: seq<Press>)
    requires Invariant(s)
    requires UnitPresses(presses)
    ensures Invariant(Run(s, presses))
    decreases |presses|
  {
    if |presses| > 0 {
      var p := presses[0];
      UpdateTimePreservesInvariant(s, p.side, p.field, p.delta);
      RunPreservesInvariant(UpdateTime(s, p.side, p.field, p.delta), presses[1..]);
    }
  }

  lemma ReachableStatesInvariant(presses: seq<Press>)
    requires UnitPresses(presses)
    ensures Invariant(Run(InitialState(), presses))
  {
    RunPreservesInvariant(InitialState(), presses);
  }

  /** Two ways the end stops being after the start: the auto-end of 11:59 PM
      is 11:59 PM itself, and once the end was moved by hand a later start
      step may pass it. */
  lemma EndNotAlwaysAfterStart()
    ensures var s := UpdateTime(PickerState(Time(11, 59, AM), AutoEnd(Time(11, 59, AM)), false), Start, AmPm, 1);
      s.start == Time(11, 59, PM) && GetMinutes(s.end) == GetMinutes(s.start)
    ensures var s := UpdateTime(PickerState(Time(12, 30, AM), Time(1, 0, AM), true), Start, Hour, 1);
      s.start == Time(1, 30, AM) && GetMinutes(s.end) < GetMinutes(s.start)
  {
  }
}

=== FILE: timetext.dfy ===
/** The text form of a time, "HH:MM AM|PM": zero padding, JavaScript's
    `parseInt` and `split`, the parser and formatter of the booking picker,
    and the blank-to-"--" display fallback. */
module TimeText {
  import opened Clock
  import opened Wrappers

  // ---------------------------------------------------------------------------
  // Decimal numerals

  predicate IsDigit(c: char)
  {
    '0' <= c <= '9'
  }

  predicate AllDigits(s: string)
  {
    forall i :: 0 <= i < |s| ==> IsDigit(s[i])
  }

  function DigitValue(c: char): nat
    requires IsDigit(c)
  {
    c as int - '0' as int
  }

  function DigitChar(d: nat): (c: char)
    requires d < 10
    ensures IsDigit(c) && DigitValue(c) == d
  {
    ('0' as int + d) as char
  }

  /** The value of a string of decimal digits, most significant first. */
  function DecimalValue(s: string): nat
    requires AllDigits(s)
  {
    if s == [] then 0 else 10 * DecimalValue(s[..|s| - 1]) + DigitValue(s[|s| - 1])
  }

  /** The decimal numeral of `n` without leading zeros, as a template
      literal `${n}` prints a non-negative integer. */
  function NatToString(n: nat): (s: string)
    ensures 1 <= |s|
    ensures AllDigits(s)
    ensures |s| == 1 <==> n < 10
    ensures s[0] == '0' ==> n == 0
  {
    if n < 10 then [DigitChar(n)] else NatToString(n / 10) + [DigitChar(n % 10)]
  }

  /** Reading a printed numeral gives back the number. */
  lemma {:induction false} DecimalValueOfNatToString(n: nat)
    ensures DecimalValue(NatToString(n)) == n
  {
    if n >= 10 {
      var s := NatToString(n);
      assert s[..|s| - 1] == NatToString(n / 10);
      DecimalValueOfNatToString(n / 10);
    }
  }

  /** A leading zero does not change the value of a numeral. */
  lemma {:induction false} DecimalValueLeadingZero(s: string)
    requires AllDigits(s)
    ensures AllDigits("0" + s) && DecimalValue("0" + s) == DecimalValue(s)
  {
    if s != [] {
      var z := "0" + s;
      assert z[..|z| - 1] == "0" + s[..|s| - 1];
      DecimalValueLeadingZero(s[..|s| - 1]);
    }
  }

  /** A template literal `${n}` of an integer: a minus sign, then the
      numeral of the magnitude. */
  function IntToString(n: int): (s: string)
    ensures 1 <= |s|
    ensures n < 0 ==> s[0] == '-' && AllDigits(s[1..]) && DecimalValue(s[1..]) == -n
    ensures n >= 0 ==> AllDigits(s) && DecimalValue(s) == n
    ensures n > 0 ==> s[0] != '0'
    ensures n < 0 ==> |s| >= 2 && s[1] != '0'
  {
    DecimalValueOfNatToString(if n < 0 then -n else n);
    if n < 0 then
      assert ("-" + NatToString(-n))[1..] == NatToString(-n);
      "-" + NatToString(-n)
    else NatToString(n)
  }

  /** Two-digit padding: a "0" goes in front of every number below ten. */
  function Pad(n: int): (s: string)
    ensures 0 <= n <= 99 ==> |s| == 2
    ensures 0 <= n ==> 2 <= |s| && AllDigits(s) && DecimalValue(s) == n
    ensures n < 10 ==> 2 <= |s| && s[0] == '0'
  {
    if n < 0 then "0" + IntToString(n)
    else if n < 10 then
      DecimalValueLeadingZero(IntToString(n));
      "0" + IntToString(n)
    else IntToString(n)
  }

  /** The longest prefix of `s` made of decimal digits. */
  function LeadingDigits(s: string): (p: string)
    ensures AllDigits(p)
    ensures |p| <= |s| && p == s[..|p|]
    ensures |p| < |s| ==> !IsDigit(s[|p|])
    ensures AllDigits(s) ==> p == s
  {
    if |s| > 0 && IsDigit(s[0]) then [s[0]] + LeadingDigits(s[1..]) else []
  }

  predicate StartsWithDigit(s: string)
  {
    |s| > 0 && IsDigit(s[0])
  }

  /** JavaScript `parseInt(s, 10)` on a string that starts with a digit: the
      value of the run of digits it starts with; whatever follows is ignored. */
  function ParseInt(s: string): (n: int)
    requires StartsWithDigit(s)
    ensures n >= 0
    ensures AllDigits(s) ==> n == DecimalValue(s)
    ensures forall k :: 0 < k <= |s| && AllDigits(s[..k]) && (k == |s| || !IsDigit(s[k])) ==>
      n == DecimalValue(s[..k])
  {
    var p := LeadingDigits(s);
    DecimalValue(p)
  }

  // ---------------------------------------------------------------------------
  // Splitting on a separator

  /** Pieces joined with a separator between neighbours. */
  function Join(parts: seq<string>, sep: char): string
  {
    if |parts| == 0 then ""
    else if |parts| == 1 then parts[0]
    else parts[0] + [sep] + Join(parts[1..], sep)
  }

  /** JavaScript `s.split(sep)` for a one-character separator: the maximal
      separator-free pieces, empty ones included, so there is always one
      piece more than there are separators. */
  function Split(s: string, sep: char): (r: seq<string>)
    ensures |r| >= 1
    ensures forall i :: 0 <= i < |r| ==> sep !in r[i]
    ensures Join(r, sep) == s
  {
    if |s| == 0 then [""]
    else
      var rest := Split(s[1..], sep);
      if s[0] == sep then
        assert s == [sep] + s[1..];
        [""] + rest
      else
        var r := [[s[0]] + rest[0]] + rest[1..];
        assert r[1..] == rest[1..];
        assert |rest| >= 2 ==> Join(rest, sep) == rest[0] + [sep] + Join(rest[1..], sep);
        assert s == [s[0]] + s[1..];
        r
  }

  /** A string without the separator is one piece. */
  lemma {:induction false} SplitWithoutSep(a: string, sep: char)
    requires sep !in a
    ensures Split(a, sep) == [a]
  {
    if |a| > 0 {
      assert sep !in a[1..];
      SplitWithoutSep(a[1..], sep);
    }
  }

  /** The first separator ends the first piece. */
  lemma {:induction false} SplitAtFirstSep(a: string, b: string, sep: char)
    requires sep !in a
    ensures Split(a + [sep] + b, sep) == [a] + Split(b, sep)
  {
    if |a| > 0 {
      assert (a + [sep] + b)[1..] == a[1..] + [sep] + b;
      assert sep !in a[1..];
      SplitAtFirstSep(a[1..], b, sep);
      assert [a[0]] + a[1..] == a;
    } else {
      assert a + [sep] + b == [sep] + b;
    }
  }

  /** Splitting undoes joining separator-free pieces, so `Split` and `Join`
      are inverse to each other. */
  lemma {:induction false} SplitOfJoin(parts: seq<string>, sep: char)
    requires |parts| >= 1
    requires forall i :: 0 <= i < |parts| ==> sep !in parts[i]
    ensures Split(Join(parts, sep), sep) == parts
  {
    if |parts| == 1 {
      SplitWithoutSep(parts[0], sep);
    } else {
      SplitOfJoin(parts[1..], sep);
      SplitAtFirstSep(parts[0], Join(parts[1..], sep), sep);
      assert parts == [parts[0]] + parts[1..];
    }
  }

  // ---------------------------------------------------------------------------
  // "HH:MM AM|PM"

  function MeridiemText(m: Meridiem): string
  {
    match m
    case AM => "AM"
    case PM => "PM"
  }

  /** The strings the time parser reads without producing NaN or an unknown
      meridiem: a space-separated time part and meridiem, and in the time
      part a colon-separated hour and minute that each start with a digit. */
  predicate Parseable(s: string)
  {
    var parts := Split(s, ' ');
    && |parts| >= 2
    && (parts[1] == "AM" || parts[1] == "PM")
    && var hm := Split(parts[0], ':');
    && |hm| >= 2
    && StartsWithDigit(hm[0])
    && StartsWithDigit(hm[1])
  }

  /** Reads the hour before the colon, the minute after it and the meridiem
      after the space, with no range check on any of them. */
  function ParseTime(s: string): (t: Time)
    requires Parseable(s)
    ensures t.hour >= 0 && t.minute >= 0
    ensures MeridiemText(t.ampm) == Split(s, ' ')[1]
    ensures var hm := Split(Split(s, ' ')[0], ':');
      && (AllDigits(hm[0]) ==> t.hour == DecimalValue(hm[0]))
      && (AllDigits(hm[1]) ==> t.minute == DecimalValue(hm[1]))
  {
    var parts := Split(s, ' ');
    var hm := Split(parts[0], ':');
    Time(ParseInt(hm[0]), ParseInt(hm[1]), if parts[1] == "PM" then PM else AM)
  }

  /** The picker's formatter: padded hour, colon, padded minute, space,
      meridiem. */
  function Format(t: Time): (s: string)
    ensures 0 <= t.hour <= 99 && 0 <= t.minute <= 99 ==> |s| == 8
    ensures |s| >= 6 && s[|s| - 3] == ' '
  {
    Pad(t.hour) + ":" + Pad(t.minute) + " " + MeridiemText(t.ampm)
  }

  lemma DigitsHaveNoSeparator(s: string, sep: char)
    requires AllDigits(s) && !IsDigit(sep)
    ensures sep !in s
  {
  }

  /** Parsing a formatted time gives it back, for every time whose fields are
      not negative, well-formed or not. */
  lemma FormatParseRoundTrip(t: Time)
    requires t.hour >= 0 && t.minute >= 0
    ensures Parseable(Format(t))
    ensures ParseTime(Format(t)) == t
  {
    var a, b, m := Pad(t.hour), Pad(t.minute), MeridiemText(t.ampm);
    DigitsHaveNoSeparator(a, ' ');
    DigitsHaveNoSeparator(a, ':');
    DigitsHaveNoSeparator(b, ' ');
    DigitsHaveNoSeparator(b, ':');
    var hm := a + [':'] + b;
    assert ' ' !in hm;
    assert Format(t) == hm + [' '] + m;
    SplitAtFirstSep(hm, m, ' ');
    SplitWithoutSep(m, ' ');
    assert Split(Format(t), ' ') == [hm, m];
    SplitAtFirstSep(a, b, ':');
    SplitWithoutSep(b, ':');
    assert Split(hm, ':') == [a, b];
  }

  /** Two digits read as a number and padded again are the same two digits. */
  lemma PadOfTwoDigits(s: string)
    requires |s| == 2 && AllDigits(s)
    ensures Pad(DecimalValue(s)) == s
  {
    var n := DecimalValue(s);
    assert s[..1] == [s[0]] && s[..1][..0] == [];
    assert DecimalValue(s[..1]) == DigitValue(s[0]);
    assert n == 10 * DigitValue(s[0]) + DigitValue(s[1]);
    if s[0] == '0' {
      assert n == DigitValue(s[1]);
      assert NatToString(n) == [s[1]];
    } else {
      assert n / 10 == DigitValue(s[0]) && n % 10 == DigitValue(s[1]);
      assert NatToString(n / 10) == [s[0]];
    }
  }

  /** Every fixed-width "HH:MM AM|PM" string parses, and formatting the result
      reproduces it exactly. */
  lemma ParseFormatRoundTrip(s: string)
    requires |s| == 8
    requires AllDigits(s[0..2]) && s[2] == ':' && AllDigits(s[3..5]) && s[5] == ' '
    requires s[6..] == "AM" || s[6..] == "PM"
    ensures Parseable(s)
    ensures Format(ParseTime(s)) == s
  {
    var a, b, m := s[0..2], s[3..5], s[6..];
    var hm := a + [':'] + b;
    assert s == hm + [' '] + m;
    DigitsHaveNoSeparator(a, ' ');
    DigitsHaveNoSeparator(a, ':');
    DigitsHaveNoSeparator(b, ' ');
    DigitsHaveNoSeparator(b, ':');
    assert ' ' !in hm;
    SplitAtFirstSep(hm, m, ' ');
    SplitWithoutSep(m, ' ');
    assert Split(s, ' ') == [hm, m];
    SplitAtFirstSep(a, b, ':');
    SplitWithoutSep(b, ':');
    assert Split(hm, ':') == [a, b];
    PadOfTwoDigits(a);
    PadOfTwoDigits(b);
  }

  // ---------------------------------------------------------------------------
  // Display fallback

  /** The characters `String.prototype.trim` removes: the white space and line
      terminator code points of the ECMAScript language specification
      (sections 12.2 and 12.3). */
  predicate IsJsWhitespace(c: char)
  {
    || c == '\t' || c == '\n' || c == '\U{000B}' || c == '\U{000C}' || c == '\r'
    || c == ' ' || c == '\U{00A0}' || c == '\U{1680}'
    || ('\U{2000}' <= c <= '\U{200A}')
    || c == '\U{2028}' || c == '\U{2029}' || c == '\U{202F}' || c == '\U{205F}'
    || c == '\U{3000}' || c == '\U{FEFF}'
  }

  predicate Blank(s: string)
  {
    forall i :: 0 <= i < |s| ==> IsJsWhitespace(s[i])
  }

  /** `s` without its leading white space. */
  function TrimStart(s: string): (r: string)
    ensures |r| <= |s| && r == s[|s| - |r|..]
    ensures Blank(s[..|s| - |r|])
    ensures r != [] ==> !IsJsWhitespace(r[0])
  {
    if |s| > 0 && IsJsWhitespace(s[0]) then
      var r := TrimStart(s[1..]);
      assert s[..|s| - |r|] == [s[0]] + s[1..][..|s| - 1 - |r|];
      r
    else s
  }

  /** `s` without its trailing white space. */
  function TrimEnd(s: string): (r: string)
    ensures |r| <= |s| && r == s[..|r|]
    ensures Blank(s[|r|..])
    ensures r != [] ==> !IsJsWhitespace(r[|r| - 1])
  {
    if |s| > 0 && IsJsWhitespace(s[|s| - 1]) then
      var r := TrimEnd(s[..|s| - 1]);
      assert s[|r|..] == s[..|s| - 1][|r|..] + [s[|s| - 1]];
      r
    else s
  }

  /** JavaScript `s.trim()`: empty exactly when `s` is all white space. */
  function Trim(s: string): (r: string)
    ensures r == [] <==> Blank(s)
    ensures r != [] ==> !IsJsWhitespace(r[0]) && !IsJsWhitespace(r[|r| - 1])
    ensures exists i, j :: 0 <= i <= j <= |s| && r == s[i..j] && Blank(s[..i]) && Blank(s[j..])
  {
    var t := TrimStart(s);
    assert s == s[..|s| - |t|] + t;
    var r := TrimEnd(t);
    var i := |s| - |t|;
    var j := i + |r|;
    assert r == s[i..j];
    assert s[j..] == t[|r|..];
    r
  }

  /** A stored time shown as it is, or "--" when it is missing, empty or only
      white space. */
  function FormatTime(time: Option<string>): (r: string)
    ensures time.Some? && !Blank(time.value) ==> r == time.value
    ensures time.None? || Blank(time.value) ==> r == "--"
  {
    if time.Some? && Trim(time.value) != "" then time.value else "--"
  }
}

=== FILE: wrappers.dfy ===
/** An optional value: JavaScript's `undefined` for an absent argument or a
    component that renders nothing. */
module Wrappers {

  datatype Option<+T> = None | Some(value: T)
}
